=== FILE: README.md ===
# A model of the PDF crawler `scrape_pdfs.py`

The crawler walks the paginated listing of a legislation site in a browser.
On each page it waits for the document entries and clicks each one in turn.
Each click opens a new tab. The crawler waits for that tab's URL to resolve,
downloads the PDF behind it as `document_NNNN.pdf` with a run-wide counter,
closes the tab and goes back to the listing. Then it looks for the "next page"
control through four selectors, tried in order. It stops when the control is
missing or disabled. Otherwise it clicks the control and waits for the old
entries to go stale.

The Dafny project models this core:

- `wrappers.dfy` holds `Option`.
- `search.dfy` holds `FirstIndex`. It is the first-success search that the
  selector chain and the 25-second poll both use.
- `safe_name.dfy` models `safe_filename`. Each maximal run of the nine
  path-illegal characters becomes one `_`. Python's `str.strip()` then removes
  the whitespace that `str.isspace()` accepts. Finally the name is cut to
  180 characters.
- `doc_name.dfy` models the name format `document_{n:04}.pdf`. `Decimal`
  renders `n` and `Padded` pads it with zeros to four digits.
- `next_control.dfy` models `find_next_li` and the decision after the entry loop.
  The browser's selector engine is abstracted to a map from each matching
  selector to the `<li>` it finds.
- `driver.dfy` models the `while True` loop. It has one step per entry, one pass
  per page and the run over a finite list of pages. Every browser observation
  is a field of an abstract `Site`:
  - how many entries the re-query finds;
  - the window handles after the click;
  - the URL the tab settles on;
  - whether the download raises;
  - what the pagination area shows;
  - whether the old entries go stale.
- `driver_props.dfy` compares every run with an independent reference list.
  That list holds every entry of every page, in page order, numbered from 1.
- `scenarios.dfy` works out concrete crawls:
  - two pages with 3 and 1 entries and a disabled control on page 2;
  - a page whose next control never renders;
  - a download that raises.

Points of the loop's behaviour that the model states explicitly:

- **Tab cleanup.** No cleanup region surrounds an entry: a download error
  propagates with the PDF tab still current (lines 119-122), and only the
  outer `finally` quits the browser. `Scenarios.BrokenDownloadLeavesTabOpen`
  shows this.
- **Counter after a failure.** Every failure inside an entry ends the run
  before line 124, so the counter never advances past a failed entry.
- **Timeouts inside an entry.** The wait timeouts at lines 93, 107 and 111 are
  not caught, and neither is an index error at line 98. Each ends the run
  (`Failed`) rather than only the entry.
- **Missing next control.** A timeout while waiting for the next control
  (line 133) is caught, so the run stops normally (`Done(NoNextControl)`).

## Model

| member | source | states |
|---|---|---|
| SafeName.SafeFilename | src/Scrap/scrape_pdfs.py:18-20 | the name has at most 180 characters and no path-illegal character, and it has no surrounding whitespace unless the cut at 180 produced it |
| SafeName.CollapseRuns | src/Scrap/scrape_pdfs.py:19 | the substitution leaves no illegal character and never lengthens the name |
| SafeName.CollapseRun | src/Scrap/scrape_pdfs.py:19 | a whole maximal run of illegal characters, however long, becomes exactly one `_` |
| SafeName.CollapseConcat | src/Scrap/scrape_pdfs.py:19 | the substitution works run by run: it distributes over any cut that does not split a run |
| SafeName.CollapseKeepsOthers | src/Scrap/scrape_pdfs.py:19 | every character that is neither illegal nor `_` survives the substitution, in order |
| SafeName.CollapseKeepsLegal | src/Scrap/scrape_pdfs.py:19 | a name without illegal characters is left unchanged by the substitution |
| SafeName.Strip | src/Scrap/scrape_pdfs.py:19 | `strip()` returns a contiguous slice whose ends are not whitespace and removes only whitespace around it |
| SafeName.StripTrimmed | src/Scrap/scrape_pdfs.py:19 | stripping a string that has no surrounding whitespace changes nothing |
| SafeName.SafeFilenameKeepsCleanNames | src/Scrap/scrape_pdfs.py:18-20 | a name that is already legal, trimmed and short enough comes back unchanged |
| SafeName.SafeFilenameIdempotent | src/Scrap/scrape_pdfs.py:18-20 | sanitising twice equals sanitising once when the first pass did not truncate |
| DocName.ParseDecimalOfDecimal | src/Scrap/scrape_pdfs.py:115 | the decimal rendering of the counter reads back as the counter |
| DocName.PaddedRoundTrip | src/Scrap/scrape_pdfs.py:115 | the zero-padded `:04` field reads back as the counter |
| DocName.Padded | src/Scrap/scrape_pdfs.py:115 | the `:04` field is all digits, as long as the decimal rendering of the counter but never shorter than four; `DocName.PaddedRoundTrip` reads it back as the counter |
| DocName.DocName | src/Scrap/scrape_pdfs.py:115 | the name is `document_`, then a field of at least four digits that reads back as the counter, then `.pdf`; `DocName.DocNameShape` pins the field to exactly four digits up to 9999 |
| Driver.FileName | src/Scrap/scrape_pdfs.py:115 | `safe_filename` leaves the counter name unchanged whenever it fits in 180 characters, and in particular for every counter up to 9999 |
| DocName.DocNameShape | src/Scrap/scrape_pdfs.py:115 | for counters up to 9999 the name is `document_`, exactly four digits whose value is the counter, then `.pdf` |
| DocName.DocNameSeven | src/Scrap/scrape_pdfs.py:115 | counter 7 gives exactly `document_0007.pdf` |
| DocName.DocNameInjective | src/Scrap/scrape_pdfs.py:115 | different counter values give different names |
| DocName.DocNameIsSafe | src/Scrap/scrape_pdfs.py:115 | sanitising a counter name leaves it unchanged while it fits in 180 characters |
| Search.FirstIndex | src/Scrap/scrape_pdfs.py:62-68 | the search returns None exactly when no element succeeds, and otherwise the index of the earliest success |
| NextControl.FindNextLi | src/Scrap/scrape_pdfs.py:39-68 | None exactly when no selector matches, and otherwise the element of the earliest matching selector |
| NextControl.FindNextLiFirstWins | src/Scrap/scrape_pdfs.py:62-66 | the earliest matching selector decides, whatever later selectors would find |
| NextControl.AnySelectorSuffices | src/Scrap/scrape_pdfs.py:44-68 | each selector on its own is enough for a control to be found |
| NextControl.PositionalFallbackSuffices | src/Scrap/scrape_pdfs.py:58-59 | a page with only the last-pagination-item markup still yields a control |
| NextControl.Decide | src/Scrap/scrape_pdfs.py:132-156 | the loop stops with "no next control" exactly when the wait never sees a control or the re-query finds none; it stops at the last page only on a disabled control; it follows only an enabled control, clicking its inner link or else the item itself |
| NextControl.DisabledStops | src/Scrap/scrape_pdfs.py:143-145 | a control whose class contains `disabled` ends the crawl |
| NextControl.EnabledFollows | src/Scrap/scrape_pdfs.py:147-156 | an enabled control that the wait and the re-query both find is clicked |
| NextControl.MissingClassIsEnabled | src/Scrap/scrape_pdfs.py:143 | an absent class attribute never reads as disabled |
| Driver.ProcessEntry | src/Scrap/scrape_pdfs.py:92-124 | one entry succeeds exactly when it opens a new tab other than the listing window, the URL resolves and the download returns; on success it writes one file named from the current counter, returns to the listing window and advances the counter by one; each failure carries its cause, checked in the order the code meets them: the re-query finds nothing, the index is past the re-queried list, no second window appears, the URL never resolves or the download raises (both with the PDF tab current and nothing written), or the last handle is the listing window (after the file is written); a failure leaves the counter unchanged and is never a staleness timeout |
| Driver.ProcessEntries | src/Scrap/scrape_pdfs.py:92-125 | entries are processed in index order and the files written extend the earlier ones in that order with consecutive counter values; the loop completes exactly when every entry completes, and then it is back in the listing window; when it fails, it stopped at the first entry that does not complete, with that entry's own failure, after writing exactly the files of the entries before it (and that entry's file only when the switch back failed) |
| Driver.VisitPage | src/Scrap/scrape_pdfs.py:81-161 | a page passes to the next exactly when it has entries, all of them complete, the next control is enabled and the old entries go stale; a normal stop carries the pagination decision's reason |
| Driver.RunFrom | src/Scrap/scrape_pdfs.py:81-161 | files once written stay written; the run ends on one of the remaining listed pages, or one page past them only in `BeyondSite`, in the listing window, after the last listed page completed every entry, followed an enabled control and went stale; `DriverProps.RunFromSound` relates the run to the reference list |
| Driver.Scrape | src/Scrap/scrape_pdfs.py:74-161 | the crawl ends on a listed page, or just past the last one only in `BeyondSite`, in the listing window, after that page completed every entry, followed an enabled control and went stale; `DriverProps.ScrapeSound` and `DriverProps.ScrapeStopsAtFirstFailure` say what it wrote |
| DriverProps.SiteDownloadsOrdered | src/Scrap/scrape_pdfs.py:81-161 | the reference list visits entries in strictly increasing page-then-index order, so no entry twice |
| DriverProps.PageWritesPrefix | src/Scrap/scrape_pdfs.py:92-125 | what the entries of a page write is a prefix of the reference list through that page, and all of it when every entry completed |
| DriverProps.PageEndSound | src/Scrap/scrape_pdfs.py:82-161 | one page from a reached state either ends the run soundly (in particular, a failure on the staleness wait has written exactly the reference list through that page) or hands the next page exactly its reached state |
| DriverProps.RunFromSound | src/Scrap/scrape_pdfs.py:81-161 | every page before the last one visited completed and advanced; a finished run wrote exactly the reference list through its last page, with the counter one past it, in the listing window, and stopped where the decision said stop; a failed run wrote a prefix of that list and failed because no entry appeared, because the entry loop stopped at its first failing entry, or because the old entries never went stale after every entry completed and the control was clicked, in which case it wrote exactly the reference list through that page |
| DriverProps.ScrapeSound | src/Scrap/scrape_pdfs.py:74-161 | in every run the k-th file carries counter k + 1, never reset between pages; the files come from entries in page-then-index order with none repeated; a finished run is back in the listing window |
| DriverProps.ScrapeStopsAtFirstFailure | src/Scrap/scrape_pdfs.py:81-159 | a failed crawl reached its last page through pages that all completed and advanced; when the old entries never went stale, its files are exactly the reference list through that page; otherwise, unless no entry appeared, it stopped at the first entry j of that page that does not complete, and its files are exactly the reference list of the earlier pages followed by the downloads of entries 0..j-1, plus entry j's own file only when the switch back at line 122 failed |
| DriverProps.NamesFromSerials | src/Scrap/scrape_pdfs.py:115-124 | up to 9999 files, files numbered 1, 2, ... are named `document_0001.pdf`, ... with no name twice |
| DriverProps.ScrapeNamesDistinct | src/Scrap/scrape_pdfs.py:79-124 | no two files of a run share a name, and the k-th is `document_` followed by k + 1 in four digits |
| DriverProps.ScrapeReaches | src/Scrap/scrape_pdfs.py:81-161 | when pages 1..p all complete and advance, the run arrives at page p + 1 with exactly their reference list written |
| DriverProps.ScrapeCompletes | src/Scrap/scrape_pdfs.py:81-161 | a run whose pages advance up to a completed page without an enabled control stops there, having downloaded every entry of those pages once, in order |
| DriverProps.ScrapeDownloadsEvery | src/Scrap/scrape_pdfs.py:81-161 | under the same conditions every entry of every one of those pages has a download, at its place in the reference list |
| DriverProps.ScrapeEmptyPageFails | src/Scrap/scrape_pdfs.py:84-88 | a page whose entries never appear ends the run in failure instead of moving on |
| Scenarios.TwoPageCrawl | src/Scrap/scrape_pdfs.py:74-161 | 3 entries on page 1 and 1 on page 2 with a disabled control give four files `document_0001.pdf` to `document_0004.pdf` and a normal stop at the last page |
| Scenarios.NoControlStops | src/Scrap/scrape_pdfs.py:132-136 | a next control that never renders during the wait stops the run normally after the page's entries |
| Scenarios.BrokenDownloadLeavesTabOpen | src/Scrap/scrape_pdfs.py:119-122 | a download that raises ends the run with the PDF tab current and nothing recorded as written |

## Left out

- Selenium itself is left out: the browser, the `WebDriverWait` polling clock, the sleeps, scrolling, and the ActionChains click with its JavaScript fallback. A click is not modelled as a step. The JavaScript click at line 105 is not guarded, so a raise there ends the run; it leaves the same state as `NoNewTab` (nothing written, counter unchanged, listing window current), and the model folds it into that failure. The wait results become the fields of the abstract `Site`.
- The HTTP download is left out: cookie transfer, the User-Agent header, streaming in 256 KiB chunks, the 60-second timeout and partial files. A download is one outcome, success or raise.
- The output directory, `os.path.join` and `driver.quit()` are left out, because they are I/O outside the loop's logic.
- The selector engine and XPath/CSS semantics are left out. A page says which of the four selectors match and which `<li>` each finds.
- Whitespace follows the character set of Python's `str.isspace()`. Strings are sequences of code points, and there is no Unicode normalisation.
- The 25-second poll at line 133 is a finite sequence of snapshots rather than a time budget. Every other wait (lines 84, 93, 107, 111, 159) is one outcome, succeeds or times out, stored as a field of the site.
- A site is a finite list of pages. A run that would follow an enabled control past the last listed page ends in `BeyondSite`. The real loop has no page bound.
- The order of `window_handles` is an input. When the last handle is the listing window itself, the model ends the run with `MainWindowClosed` after the file is written. This stands for the failing switch at line 122 once `close()` has closed the listing window.
- DriverProps.ScrapeNamesDistinct: stated only for runs of at most 9999 files, where every name has exactly four digits. `DocName.DocNameInjective` covers the general case.
- DriverProps.NamesFromSerials: stated only for at most 9999 files, where every name has exactly four digits. `DocName.DocNameInjective` covers the general case.
- SafeName.SafeFilenameIdempotent: stated only when the first pass does not truncate. A cut at 180 characters can leave trailing whitespace, which a second pass strips.
- The wait at line 84 and the count at line 89 are one value, the length of a page's entry list. A page where the wait succeeds but line 89 then finds nothing cannot be expressed; the crawler would skip the entry loop and then stop normally, or raise `IndexError` at `docs[0]` on line 159 after following the control.
- The URL that the wait at line 111 accepts and the URL read at line 113 after the sleep are one value, `Entry.url`. A tab that changes its URL during the sleep is not modelled.
- The `print` progress messages are left out, because they are output with no effect on the loop.

=== FILE: doc_name.dfy ===
/** The counter-based file name of line 115: `document_{n:04}.pdf`, the
    decimal rendering of `n` left-padded with zeros to at least four digits. */
module DocName {
  import SafeName

  const Prefix: string := "document_"
  const Suffix: string := ".pdf"

  /** Minimum number of digits of the `:04` format. */
  const Width: nat := 4

  predicate IsDigit(c: char) {
    '0' <= c <= '9'
  }

  predicate AllDigits(s: string) {
    forall i :: 0 <= i < |s| ==> IsDigit(s[i])
  }

  function DigitChar(d: nat): (c: char)
    requires d < 10
    ensures IsDigit(c)
  {
    ('0' as int + d) as char
  }

  function DigitValue(c: char): (d: nat)
    requires IsDigit(c)
    ensures d < 10
  {
    c as int - '0' as int
  }

  /** Python's `str(n)` for a non-negative integer: no sign, no leading zeros. */
  function Decimal(n: nat): (s: string)
    ensures |s| > 0 && AllDigits(s)
    decreases n
  {
    if n < 10 then [DigitChar(n)] else Decimal(n / 10) + [DigitChar(n % 10)]
  }

  /** The value of a string of decimal digits (leading zeros allowed). */
  function ParseDecimal(s: string): nat
    requires AllDigits(s)
  {
    if |s| == 0 then 0 else ParseDecimal(s[..|s| - 1]) * 10 + DigitValue(s[|s| - 1])
  }

  function Zeros(k: nat): (z: string)
    ensures |z| == k && forall i :: 0 <= i < k ==> z[i] == '0'
  {
    seq(k, _ => '0')
  }

  function Pow10(k: nat): (p: nat)
    ensures p >= 1
  {
    if k == 0 then 1 else 10 * Pow10(k - 1)
  }

  /** `format(n, "04")`: `Decimal(n)` left-padded with zeros to `Width` characters. */
  function Padded(n: nat): (s: string)
    ensures AllDigits(s)
    ensures |s| == if |Decimal(n)| >= Width then |Decimal(n)| else Width
  {
    var d := Decimal(n);
    if |d| >= Width then d else Zeros(Width - |d|) + d
  }

  /** The name built at line 115, before it is sanitised: `document_`, then a
      field of at least four digits that reads back as `n`, then `.pdf`. */
  function DocName(n: nat): (name: string)
    ensures |name| >= |Prefix| + Width + |Suffix|
    ensures name[..|Prefix|] == Prefix && name[|name| - |Suffix|..] == Suffix
    ensures var field := name[|Prefix|..|name| - |Suffix|];
            AllDigits(field) && ParseDecimal(field) == n
  {
    var name := Prefix + Padded(n) + Suffix;
    assert name[|Prefix|..|name| - |Suffix|] == Padded(n);
    PaddedRoundTrip(n);
    name
  }

  /** Reading back the rendering gives the number: `Decimal` is injective. */
  lemma {:induction false} ParseDecimalOfDecimal(n: nat)
    ensures ParseDecimal(Decimal(n)) == n
    decreases n
  {
    if n >= 10 {
      var s := Decimal(n);
      assert s[..|s| - 1] == Decimal(n / 10);
      ParseDecimalOfDecimal(n / 10);
    }
  }

  lemma {:induction false} ParseZeros(k: nat)
    ensures ParseDecimal(Zeros(k)) == 0
    decreases k
  {
    if k > 0 {
      assert Zeros(k)[..k - 1] == Zeros(k - 1);
      ParseZeros(k - 1);
    }
  }

  /** Leading zeros do not change the value. */
  lemma {:induction false} ParseLeadingZeros(k: nat, s: string)
    requires AllDigits(s)
    ensures AllDigits(Zeros(k) + s)
    ensures ParseDecimal(Zeros(k) + s) == ParseDecimal(s)
    decreases |s|
  {
    var z := Zeros(k) + s;
    if |s| == 0 {
      assert z == Zeros(k);
      ParseZeros(k);
    } else {
      assert z[..|z| - 1] == Zeros(k) + s[..|s| - 1];
      ParseLeadingZeros(k, s[..|s| - 1]);
    }
  }

  /** The padded field reads back as the number it renders. */
  lemma PaddedRoundTrip(n: nat)
    ensures ParseDecimal(Padded(n)) == n
  {
    var d := Decimal(n);
    ParseDecimalOfDecimal(n);
    if |d| < Width {
      ParseLeadingZeros(Width - |d|, d);
    }
  }

  lemma {:induction false} DecimalLength(n: nat, k: nat)
    requires k >= 1 && n < Pow10(k)
    ensures |Decimal(n)| <= k
    decreases k
  {
    if n >= 10 {
      DecimalLength(n / 10, k - 1);
    }
  }

  /** For 1 <= n <= 9999 the counter field is exactly four digits whose value is n,
      so `DocName(7)` is `document_0007.pdf`. */
  lemma DocNameShape(n: nat)
    requires n <= 9999
    ensures |DocName(n)| == |Prefix| + Width + |Suffix|
    ensures DocName(n)[..|Prefix|] == Prefix
    ensures DocName(n)[|Prefix| + Width..] == Suffix
    ensures AllDigits(DocName(n)[|Prefix|..|Prefix| + Width])
    ensures ParseDecimal(DocName(n)[|Prefix|..|Prefix| + Width]) == n
  {
    DecimalLength(n, 4);
    PaddedRoundTrip(n);
    assert DocName(n)[|Prefix|..|Prefix| + Width] == Padded(n);
  }

  lemma DocNameSeven()
    ensures DocName(7) == "document_0007.pdf"
  {
    assert Decimal(7) == "7";
    assert Padded(7) == "0007";
  }

  /** Different counter values give different names: the field of each name
      reads back as its counter. */
  lemma DocNameInjective(a: nat, b: nat)
    requires DocName(a) == DocName(b)
    ensures a == b
  {
  }

  /** Sanitising the counter name at line 115 is the identity while it fits in 180 characters. */
  lemma DocNameIsSafe(n: nat)
    requires |DocName(n)| <= SafeName.MaxNameLength
    ensures SafeName.SafeFilename(DocName(n)) == DocName(n)
  {
    var s := DocName(n);
    var p := Padded(n);
    forall i | 0 <= i < |s|
      ensures !SafeName.IsIllegal(s[i])
    {
      if |Prefix| <= i < |Prefix| + |p| {
        assert s[i] == p[i - |Prefix|];
      }
    }
    assert s[0] == 'd' && s[|s| - 1] == 'f';
    SafeName.SafeFilenameKeepsCleanNames(s);
  }
}

=== FILE: driver.dfy ===
/** The crawl loop of scrape_pdfs.py (lines 74-161) over an abstract site.

    The browser is not modelled; what each browser call would observe is a
    field of the site instead:
    - a `Page` lists the behaviour of each entry the count at line 89 finds,
      what the pagination area shows, and whether the old entries go stale
      after the next control is clicked;
    - an `Entry` says how many entries the re-query at line 93 finds, the
      window-handle list once the click has opened a tab, the URL that tab
      settles on, and whether the download raises.
    Every wait of the crawler either succeeds or times out; the timeouts that
    scrape_pdfs.py does not catch end the run in `Failed`. */
module Driver {
  import opened Wrappers
  import SafeName
  import DocName
  import NextControl

  type Handle = nat

  datatype Entry = Entry(
    requeried: nat,        // how many entries the re-query at line 93 finds
    handles: seq<Handle>,  // window handles once the wait at line 107 returns
    url: string,           // the URL the new tab ends up on (line 111)
    downloadOk: bool)      // whether the download at line 119 returns normally

  datatype Page = Page(entries: seq<Entry>, pagination: NextControl.Pagination, goesStale: bool)

  /** `main` is the listing window recorded at line 76; `pages[k]` is page `k + 1`. */
  datatype Site = Site(main: Handle, pages: seq<Page>)

  /** Which entry a download came from: page number, index on the page, URL. */
  datatype Visit = Visit(page: nat, index: nat, url: string)

  /** A file written at line 119: the entry it came from and the value of
      `doc_counter` its name was built from. */
  datatype Download = Download(at: Visit, serial: nat) {
    /** The file name under the output directory. */
    function Name(): string {
      FileName(serial)
    }
  }

  /** The loop's variables: `page`, `doc_counter`, the current window, and the
      files written so far. */
  datatype State = State(page: nat, counter: nat, current: Handle, written: seq<Download>)

  datatype Failure =
    | EntriesTimeout     // no entry appears within the wait (line 84 or 93)
    | IndexOutOfRange    // the re-query at line 93 finds fewer entries than the index (line 98)
    | NoNewTab           // no second window appears (line 107)
    | UrlTimeout         // the new tab never leaves the blank page (line 111)
    | DownloadError      // the download raises (line 119)
    | MainWindowClosed   // the "new" tab was the listing window itself; switching back fails (line 122)
    | StalenessTimeout   // the old entries never go stale after the click (line 159)

  datatype Step = Step(state: State, failure: Option<Failure>)

  datatype Outcome =
    | Done(reason: NextControl.StopReason)
    | Failed(failure: Failure)
    | BeyondSite   // the last listed page passed (`PassedLast`) and the crawl would go on past the listed pages

  datatype Run = Run(outcome: Outcome, state: State)

  const BlankUrl: string := "about:blank"

  /** The condition of the wait at line 111. */
  predicate UrlResolved(url: string) {
    url != "" && url != BlankUrl
  }

  /** Line 115: the sanitised counter name. Sanitising never changes it while
      it fits in 180 characters, in particular for every four-digit counter. */
  function FileName(counter: nat): (name: string)
    ensures |DocName.DocName(counter)| <= SafeName.MaxNameLength ==> name == DocName.DocName(counter)
    ensures counter <= 9999 ==> name == DocName.DocName(counter)
  {
    var raw := DocName.DocName(counter);
    if counter <= 9999 then
      DocName.DocNameShape(counter);
      DocName.DocNameIsSafe(counter);
      SafeName.SafeFilename(raw)
    else if |raw| <= SafeName.MaxNameLength then
      DocName.DocNameIsSafe(counter);
      SafeName.SafeFilename(raw)
    else
      SafeName.SafeFilename(raw)
  }

  function LastHandle(handles: seq<Handle>): Handle
    requires |handles| > 0
  {
    handles[|handles| - 1]
  }

  /** Entry `i` runs to line 124 without raising. */
  predicate EntryCompletes(main: Handle, i: nat, e: Entry) {
    && i < e.requeried
    && |e.handles| > 1
    && LastHandle(e.handles) != main
    && UrlResolved(e.url)
    && e.downloadOk
  }

  /** The download that entry `i` of the current page produces. */
  function EntryDownload(st: State, i: nat, e: Entry): Download {
    Download(Visit(st.page, i, e.url), st.counter)
  }

  /** One iteration of the loop at lines 92-125. */
  function ProcessEntry(main: Handle, st: State, i: nat, e: Entry): (r: Step)
    ensures r.state.page == st.page
    ensures r.failure.None? <==> EntryCompletes(main, i, e)
    ensures r.failure.None? ==> && r.state.counter == st.counter + 1
                                && r.state.current == main
                                && r.state.written == st.written + [EntryDownload(st, i, e)]
    ensures r.failure == Some(MainWindowClosed)
            ==> r.state.counter == st.counter && r.state.written == st.written + [EntryDownload(st, i, e)]
    ensures r.failure.Some? && r.failure != Some(MainWindowClosed)
            ==> r.state.counter == st.counter && r.state.written == st.written
    ensures r.failure == Some(UrlTimeout) || r.failure == Some(DownloadError)
            ==> |e.handles| > 1 && r.state.current == LastHandle(e.handles)
    // Each failure carries its cause, checked in the order the crawler meets them.
    ensures e.requeried == 0 ==> r == Step(st, Some(EntriesTimeout))
    ensures 0 < e.requeried <= i ==> r == Step(st, Some(IndexOutOfRange))
    ensures i < e.requeried && |e.handles| <= 1 ==> r == Step(st, Some(NoNewTab))
    ensures i < e.requeried && |e.handles| > 1 && !UrlResolved(e.url)
            ==> r == Step(st.(current := LastHandle(e.handles)), Some(UrlTimeout))
    ensures i < e.requeried && |e.handles| > 1 && UrlResolved(e.url) && !e.downloadOk
            ==> r == Step(st.(current := LastHandle(e.handles)), Some(DownloadError))
    ensures i < e.requeried && |e.handles| > 1 && UrlResolved(e.url) && e.downloadOk && LastHandle(e.handles) == main
            ==> r.failure == Some(MainWindowClosed) && r.state.written == st.written + [EntryDownload(st, i, e)]
    ensures r.failure != Some(StalenessTimeout)
  {
    if e.requeried == 0 then Step(st, Some(EntriesTimeout))
    else if i >= e.requeried then Step(st, Some(IndexOutOfRange))
    else if |e.handles| <= 1 then Step(st, Some(NoNewTab))
    else
      var tab := LastHandle(e.handles);
      var inTab := st.(current := tab);
      if !UrlResolved(e.url) then Step(inTab, Some(UrlTimeout))
      else if !e.downloadOk then Step(inTab, Some(DownloadError))
      else
        var saved := inTab.(written := st.written + [EntryDownload(st, i, e)]);
        if tab == main then Step(saved, Some(MainWindowClosed))
        else Step(saved.(current := main, counter := st.counter + 1), None)
  }

  /** What entries `i..` of a page write when they all complete, starting from `st`. */
  predicate WroteInOrder(st: State, entries: seq<Entry>, i: nat, w: seq<Download>)
    requires i <= |entries|
  {
    && |st.written| <= |w| <= |st.written| + |entries| - i
    && w[..|st.written|] == st.written
    && forall k :: |st.written| <= k < |w| ==>
         var j := i + k - |st.written|;
         w[k] == Download(Visit(st.page, j, entries[j].url), st.counter + k - |st.written|)
  }

  /** The loop at lines 92-125 from index `i` on: entries are processed in
      increasing index order until one fails. */
  function ProcessEntries(main: Handle, st: State, entries: seq<Entry>, i: nat): (r: Step)
    requires i <= |entries|
    ensures r.state.page == st.page
    ensures WroteInOrder(st, entries, i, r.state.written)
    ensures r.failure != Some(MainWindowClosed)
            ==> r.state.counter == st.counter + |r.state.written| - |st.written|
    ensures r.failure == Some(MainWindowClosed)
            ==> r.state.counter + 1 == st.counter + |r.state.written| - |st.written|
    ensures r.failure.None? <==> forall j :: i <= j < |entries| ==> EntryCompletes(main, j, entries[j])
    ensures r.failure.None? ==> |r.state.written| == |st.written| + |entries| - i
    ensures r.failure.None? && i < |entries| ==> r.state.current == main
    ensures r.failure.Some? ==> StoppedAt(main, st, entries, i, r)
    decreases |entries| - i
  {
    if i == |entries| then Step(st, None)
    else
      var r := ProcessEntry(main, st, i, entries[i]);
      if r.failure.Some? then
        WroteAtMostOne(st, entries, i, r.state.written);
        r
      else
        var rest := ProcessEntries(main, r.state, entries, i + 1);
        WroteInOrderStep(st, r.state, entries, i, rest.state.written);
        StoppedAtStep(main, st, r.state, entries, i, rest);
        rest
  }

  /** The number of entries from `i` on that completed before the loop stopped
      with `r`: the files it added, less the one written by an entry whose
      switch back to the listing window failed. */
  function Completed(st: State, r: Step): int {
    |r.state.written| - |st.written| - (if r.failure == Some(MainWindowClosed) then 1 else 0)
  }

  /** The loop started at `i` stopped at entry `j = i + Completed(st, r)`: every
      entry before `j` completes, entry `j` does not, and `r` carries the
      failure that entry `j` raises. */
  predicate StoppedAt(main: Handle, st: State, entries: seq<Entry>, i: nat, r: Step)
    requires i <= |entries|
  {
    var j := i + Completed(st, r);
    && i <= j < |entries|
    && (forall m :: i <= m < j ==> EntryCompletes(main, m, entries[m]))
    && !EntryCompletes(main, j, entries[j])
    && r.failure == ProcessEntry(main, st, j, entries[j]).failure
  }

  /** Which failure an entry raises does not depend on the loop state. */
  lemma FailureIgnoresState(main: Handle, s1: State, s2: State, i: nat, e: Entry)
    ensures ProcessEntry(main, s1, i, e).failure == ProcessEntry(main, s2, i, e).failure
  {
  }

  /** A stop later in the page, after entry `i` completed, is a stop of the loop started at `i`. */
  lemma StoppedAtStep(main: Handle, st: State, st': State, entries: seq<Entry>, i: nat, rest: Step)
    requires i < |entries| && EntryCompletes(main, i, entries[i])
    requires |st'.written| == |st.written| + 1
    requires rest.failure.Some? ==> StoppedAt(main, st', entries, i + 1, rest)
    ensures rest.failure.Some? ==> StoppedAt(main, st, entries, i, rest)
  {
    if rest.failure.None? { return; }
    var j := i + 1 + Completed(st', rest);
    assert j == i + Completed(st, rest);
    FailureIgnoresState(main, st, st', j, entries[j]);
  }

  /** A failed entry wrote nothing or exactly its own file. */
  lemma WroteAtMostOne(st: State, entries: seq<Entry>, i: nat, w: seq<Download>)
    requires i < |entries|
    requires w == st.written || w == st.written + [EntryDownload(st, i, entries[i])]
    ensures WroteInOrder(st, entries, i, w)
  {
  }

  /** A completed entry followed by the rest of the page is the page written in order. */
  lemma WroteInOrderStep(st: State, st': State, entries: seq<Entry>, i: nat, w: seq<Download>)
    requires i < |entries|
    requires st'.page == st.page && st'.counter == st.counter + 1
    requires st'.written == st.written + [EntryDownload(st, i, entries[i])]
    requires WroteInOrder(st', entries, i + 1, w)
    ensures WroteInOrder(st, entries, i, w)
  {
    var n := |st.written|;
    assert w[..n] == w[..n + 1][..n];
    forall k | n <= k < |w|
      ensures w[k] == Download(Visit(st.page, i + k - n, entries[i + k - n].url), st.counter + k - n)
    {
      if k == n {
        assert w[k] == w[..n + 1][n];
      }
    }
  }

  /** How one pass of the `while True` body ends: the run is over, or the loop
      goes round again with the given state. */
  datatype PageEnd = Finished(run: Run) | Continue(next: State)

  /** One pass of the `while True` body (lines 82-161) on the page `pg`. */
  function VisitPage(main: Handle, pg: Page, st: State): (e: PageEnd)
    ensures e.Continue? <==> PagePasses(main, pg)
    ensures e.Continue? ==> e.next.page == st.page + 1 && e.next.current == main
    ensures e.Finished? && e.run.outcome.Done?
            ==> NextControl.Decide(pg.pagination) == NextControl.Stop(e.run.outcome.reason)
    ensures e.Finished? ==> !e.run.outcome.BeyondSite? && e.run.state.page == st.page
    ensures e.Finished? ==> st.written <= e.run.state.written
    ensures e.Continue? ==> st.written <= e.next.written
  {
    if |pg.entries| == 0 then Finished(Run(Failed(EntriesTimeout), st))
    else
      var s := ProcessEntries(main, st, pg.entries, 0);
      if s.failure.Some? then Finished(Run(Failed(s.failure.value), s.state))
      else
        match NextControl.Decide(pg.pagination)
        case Stop(reason) => Finished(Run(Done(reason), s.state))
        case Follow(_) =>
          if !pg.goesStale then Finished(Run(Failed(StalenessTimeout), s.state))
          else Continue(s.state.(page := s.state.page + 1))
  }

  /** Why a page ended the run in failure: no entry ever appeared; or the
      entry loop stopped at its first failing entry; or every entry completed,
      the next control was clicked and the old entries never went stale. */
  predicate PageFailure(main: Handle, pg: Page, st: State, run: Run)
    requires run.outcome.Failed?
  {
    if |pg.entries| == 0 then run == Run(Failed(EntriesTimeout), st)
    else if run.outcome.failure == StalenessTimeout then
      && (forall j :: 0 <= j < |pg.entries| ==> EntryCompletes(main, j, pg.entries[j]))
      && NextControl.Decide(pg.pagination).Follow?
      && !pg.goesStale
    else StoppedAt(main, st, pg.entries, 0, Step(run.state, Some(run.outcome.failure)))
  }

  /** A page that ends the run in failure fails for one of the reasons `PageFailure` lists. */
  lemma VisitPageFailure(main: Handle, pg: Page, st: State)
    ensures var e := VisitPage(main, pg, st);
            e.Finished? && e.run.outcome.Failed? ==> PageFailure(main, pg, st, e.run)
  {
    if |pg.entries| > 0 {
      var s := ProcessEntries(main, st, pg.entries, 0);
      assert s.failure.Some? ==> s == Step(s.state, Some(s.failure.value));
    }
  }

  /** The `while True` loop of lines 81-161, from page `k + 1` on. Files once
      written are never taken back; the run ends on one of the remaining
      listed pages, or, only in `BeyondSite`, one page past them, in the
      listing window, after the last listed page completed every entry,
      followed an enabled next control and went stale. */
  function RunFrom(site: Site, k: nat, st: State): (r: Run)
    requires k < |site.pages|
    ensures st.written <= r.state.written
    ensures !r.outcome.BeyondSite? ==> st.page <= r.state.page < st.page + |site.pages| - k
    ensures r.outcome.BeyondSite? ==> r.state.page == st.page + |site.pages| - k && r.state.current == site.main
    ensures r.outcome.BeyondSite? ==> PassedLast(site)
    decreases |site.pages| - k
  {
    match VisitPage(site.main, site.pages[k], st)
    case Finished(r) => r
    case Continue(next) =>
      if k + 1 == |site.pages| then
        PassedLastPage(site, k, st);
        Run(BeyondSite, next)
      else RunFrom(site, k + 1, next)
  }

  /** A pass over the last listed page that goes round again passed it. */
  lemma PassedLastPage(site: Site, k: nat, st: State)
    requires k + 1 == |site.pages| && VisitPage(site.main, site.pages[k], st).Continue?
    ensures PassedLast(site)
  {
    var pg := site.pages[k];
    assert site.pages[|site.pages| - 1] == pg;
    assert PagePasses(site.main, pg);
  }

  /** The last listed page had entries, all of them completed, its next
      control was followed and its old entries went stale. */
  predicate PassedLast(site: Site)
    requires |site.pages| > 0
  {
    PagePasses(site.main, site.pages[|site.pages| - 1])
  }

  /** Page `pg` had entries, all of them completed, its next control was
      followed and its old entries went stale. */
  predicate PagePasses(main: Handle, pg: Page) {
    && |pg.entries| > 0
    && (forall j :: 0 <= j < |pg.entries| ==> EntryCompletes(main, j, pg.entries[j]))
    && NextControl.Decide(pg.pagination).Follow?
    && pg.goesStale
  }

  /** The state at line 80: page 1, counter 1, in the listing window, nothing written. */
  function Initial(site: Site): State {
    State(1, 1, site.main, [])
  }

  /** The whole crawl, starting on the page loaded at line 75. It ends on a
      listed page, or, only in `BeyondSite`, just past the last one after that
      page completed every entry, followed an enabled next control and went
      stale. */
  function Scrape(site: Site): (r: Run)
    requires |site.pages| > 0
    ensures !r.outcome.BeyondSite? ==> 1 <= r.state.page <= |site.pages|
    ensures r.outcome.BeyondSite? ==> r.state.page == |site.pages| + 1 && r.state.current == site.main
    ensures r.outcome.BeyondSite? ==> PassedLast(site)
  {
    RunFrom(site, 0, Initial(site))
  }
}

=== FILE: driver_props.dfy ===
/** What the crawl loop of scrape_pdfs.py guarantees on every abstract site:
    the files it writes are a prefix of one reference list (every entry of
    every page, in page order and index order, numbered from 1 without a
    reset at page boundaries), it finishes in the listing window, and it stops
    exactly where the next control is missing or disabled. */
module DriverProps {
  import opened Wrappers
  import DocName
  import NextControl
  import opened Driver

  /** The downloads of one fully processed page whose first file is number `first`. */
  function PageDownloads(pageNo: nat, entries: seq<Entry>, first: nat): seq<Download> {
    seq(|entries|, j requires 0 <= j < |entries| => Download(Visit(pageNo, j, entries[j].url), first + j))
  }

  /** Reference list: what a crawl that completes every entry of the first `n`
      pages writes, page after page, with one run-wide counter. */
  function SiteDownloads(pages: seq<Page>, n: nat): seq<Download>
    requires n <= |pages|
  {
    if n == 0 then []
    else
      var before := SiteDownloads(pages, n - 1);
      before + PageDownloads(n, pages[n - 1].entries, |before| + 1)
  }

  /** The loop state at the top of page `k + 1` when pages `1..k` were all completed. */
  function Reached(site: Site, k: nat): State
    requires k <= |site.pages|
  {
    var w := SiteDownloads(site.pages, k);
    State(k + 1, |w| + 1, site.main, w)
  }

  /** Page `q + 1` has entries and every one of them completes. */
  predicate PageSucceeds(site: Site, q: nat)
    requires q < |site.pages|
  {
    var entries := site.pages[q].entries;
    |entries| > 0 && forall j :: 0 <= j < |entries| ==> EntryCompletes(site.main, j, entries[j])
  }

  /** Page `q + 1` succeeds and the crawl moves on to the following page. */
  predicate PageAdvances(site: Site, q: nat)
    requires q < |site.pages|
  {
    && PageSucceeds(site, q)
    && NextControl.Decide(site.pages[q].pagination).Follow?
    && site.pages[q].goesStale
  }

  /** Visit `v` comes strictly before `u` in page-then-index order. */
  predicate Before(v: Visit, u: Visit) {
    v.page < u.page || (v.page == u.page && v.index < u.index)
  }

  /** The downloads come from entries in strictly increasing (page, index) order. */
  predicate Ordered(w: seq<Download>) {
    forall a, b :: 0 <= a < b < |w| ==> Before(w[a].at, w[b].at)
  }

  // ---------------------------------------------------------------------
  // The reference list
  // ---------------------------------------------------------------------

  /** The k-th file of the reference list carries counter value k + 1. */
  lemma {:induction false} SiteDownloadsSerials(pages: seq<Page>, n: nat)
    requires n <= |pages|
    ensures forall k :: 0 <= k < |SiteDownloads(pages, n)| ==> SiteDownloads(pages, n)[k].serial == k + 1
  {
    if n > 0 {
      SiteDownloadsSerials(pages, n - 1);
    }
  }

  /** Crawling more pages only extends the list. */
  lemma {:induction false} SiteDownloadsGrow(pages: seq<Page>, a: nat, b: nat)
    requires a <= b <= |pages|
    ensures SiteDownloads(pages, a) <= SiteDownloads(pages, b)
    decreases b
  {
    if a < b {
      SiteDownloadsGrow(pages, a, b - 1);
    }
  }

  /** Every page number in the list lies in `1..n`. */
  lemma {:induction false} SiteDownloadsPages(pages: seq<Page>, n: nat)
    requires n <= |pages|
    ensures forall k :: 0 <= k < |SiteDownloads(pages, n)| ==> 1 <= SiteDownloads(pages, n)[k].at.page <= n
  {
    if n > 0 {
      SiteDownloadsPages(pages, n - 1);
    }
  }

  /** Entries are listed in strictly increasing (page, index) order, so none twice. */
  lemma {:induction false} SiteDownloadsOrdered(pages: seq<Page>, n: nat)
    requires n <= |pages|
    ensures Ordered(SiteDownloads(pages, n))
  {
    if n > 0 {
      var before := SiteDownloads(pages, n - 1);
      var page := PageDownloads(n, pages[n - 1].entries, |before| + 1);
      var d := SiteDownloads(pages, n);
      assert d == before + page;
      SiteDownloadsOrdered(pages, n - 1);
      SiteDownloadsPages(pages, n - 1);
      forall a, b | 0 <= a < b < |d|
        ensures Before(d[a].at, d[b].at)
      {
        if b < |before| {
          assert d[a] == before[a] && d[b] == before[b];
        } else if a < |before| {
          assert d[a] == before[a] && d[b] == page[b - |before|];
          assert before[a].at.page <= n - 1;
          assert page[b - |before|].at.page == n;
        } else {
          assert d[a] == page[a - |before|] && d[b] == page[b - |before|];
          assert page[a - |before|].at == Visit(n, a - |before|, pages[n - 1].entries[a - |before|].url);
          assert page[b - |before|].at == Visit(n, b - |before|, pages[n - 1].entries[b - |before|].url);
        }
      }
    }
  }

  /** Every entry `j` of every page `q + 1` up to page `n` has a download in `w`,
      at position (entries of the pages before it) + `j`. */
  predicate DownloadsEvery(w: seq<Download>, pages: seq<Page>, n: nat)
    requires n <= |pages|
  {
    forall q, j :: 0 <= q < n && 0 <= j < |pages[q].entries| ==>
      var k := |SiteDownloads(pages, q)| + j;
      k < |w| && w[k].at == Visit(q + 1, j, pages[q].entries[j].url)
  }

  /** Entry `j` of page `q + 1` is in the list, at position (entries of pages before it) + `j`. */
  lemma SiteDownloadsCover(pages: seq<Page>, n: nat, q: nat, j: nat)
    requires q < n <= |pages| && j < |pages[q].entries|
    ensures var k := |SiteDownloads(pages, q)| + j;
            k < |SiteDownloads(pages, n)|
            && SiteDownloads(pages, n)[k].at == Visit(q + 1, j, pages[q].entries[j].url)
  {
    SiteDownloadsNext(pages, q);
    SiteDownloadsGrow(pages, q + 1, n);
  }

  /** The reference list through page `n` downloads every entry of pages `1..n`. */
  lemma SiteDownloadsComplete(pages: seq<Page>, n: nat)
    requires n <= |pages|
    ensures DownloadsEvery(SiteDownloads(pages, n), pages, n)
  {
    forall q, j | 0 <= q < n && 0 <= j < |pages[q].entries|
      ensures var k := |SiteDownloads(pages, q)| + j;
              k < |SiteDownloads(pages, n)|
              && SiteDownloads(pages, n)[k].at == Visit(q + 1, j, pages[q].entries[j].url)
    {
      SiteDownloadsCover(pages, n, q, j);
    }
  }

  // ---------------------------------------------------------------------
  // The crawl against the reference list
  // ---------------------------------------------------------------------

  /** What the entries of page `k + 1` wrote from `Reached(site, k)` is a prefix of
      the reference list through page `k + 1`, and all of it when no entry failed. */
  lemma PageWritesPrefix(site: Site, k: nat, w: seq<Download>)
    requires k < |site.pages|
    requires WroteInOrder(Reached(site, k), site.pages[k].entries, 0, w)
    ensures w <= SiteDownloads(site.pages, k + 1)
    ensures |w| == |Reached(site, k).written| + |site.pages[k].entries| ==> w == SiteDownloads(site.pages, k + 1)
  {
    var st := Reached(site, k);
    SiteDownloadsNext(site.pages, k);
    WroteInOrderPrefix(st, site.pages[k].entries, w);
  }

  /** One more page appends that page's downloads, numbered on from the list so far. */
  lemma SiteDownloadsNext(pages: seq<Page>, n: nat)
    requires n < |pages|
    ensures var before := SiteDownloads(pages, n);
            SiteDownloads(pages, n + 1) == before + PageDownloads(n + 1, pages[n].entries, |before| + 1)
  {
  }

  /** Entries written in order from a state whose counter is one past its files
      extend those files by a prefix of the page's downloads. */
  lemma WroteInOrderPrefix(st: State, entries: seq<Entry>, w: seq<Download>)
    requires st.counter == |st.written| + 1
    requires WroteInOrder(st, entries, 0, w)
    ensures var full := st.written + PageDownloads(st.page, entries, st.counter);
            w <= full && (|w| == |full| ==> w == full)
  {
    var full := st.written + PageDownloads(st.page, entries, st.counter);
    var n := |st.written|;
    assert w[..n] == st.written;
    forall i | 0 <= i < |w|
      ensures w[i] == full[i]
    {
      if i < n {
        assert w[i] == w[..n][i];
      }
    }
  }

  /** What the entry loop leaves behind on page `k + 1` when pages `1..k` were completed. */
  lemma PageResult(site: Site, k: nat)
    requires k < |site.pages|
    ensures var s := ProcessEntries(site.main, Reached(site, k), site.pages[k].entries, 0);
            && s.state.page == k + 1
            && s.state.written <= SiteDownloads(site.pages, k + 1)
            && (s.failure != Some(MainWindowClosed) ==> s.state.counter == |s.state.written| + 1)
            && (s.failure == Some(MainWindowClosed) ==> s.state.counter == |s.state.written|)
            && (s.failure.None? && |site.pages[k].entries| > 0 ==> s.state == Reached(site, k + 1).(page := k + 1))
  {
    var s := ProcessEntries(site.main, Reached(site, k), site.pages[k].entries, 0);
    PageWritesPrefix(site, k, s.state.written);
  }

  /** How a crawl that reached page `k + 1` with pages `1..k` completed may end.
      In every case each page from `k + 1` up to the one before the last page
      visited completed and advanced. Then:
      - finished at page p: page p completed, its next control was missing or
        disabled, the files are exactly the reference list through page p,
        the counter is one past them, and the window is the listing one;
      - ran past the last listed page: every listed page was completed;
      - failed on page p: page p failed for one of the reasons `PageFailure`
        lists (in particular the entry loop stopped at the first entry that
        does not complete), the files are a prefix of the reference list
        through page p, and the counter is one past them, unless the failure
        was the switch back to a closed listing window, which comes after the
        file is written and before the counter moves. */
  predicate EndsSound(site: Site, k: nat, r: Run)
    requires k < |site.pages|
  {
    && k + 1 <= r.state.page
    && AdvancedBefore(site, k, r.state.page)
    && EndsAt(site, r)
  }

  /** Every listed page from `lo + 1` up to the one before page `last` completed and advanced. */
  predicate AdvancedBefore(site: Site, lo: nat, last: nat) {
    forall q :: lo <= q && q + 1 < last && q < |site.pages| ==> PageAdvances(site, q)
  }

  /** The three ways a run ends, each at its last page. */
  predicate EndsAt(site: Site, r: Run) {
    && (r.outcome.Done? ==> FinishedAt(site, r))
    && (r.outcome.BeyondSite? ==> r.state == Reached(site, |site.pages|).(page := |site.pages| + 1))
    && (r.outcome.Failed? ==> FailedAt(site, r))
  }

  /** A normal stop at page p: page p completed, its next control was missing
      or disabled, and the files are exactly the reference list through page p. */
  predicate FinishedAt(site: Site, r: Run)
    requires r.outcome.Done?
  {
    && 1 <= r.state.page <= |site.pages|
    && r.state == Reached(site, r.state.page).(page := r.state.page)
    && PageSucceeds(site, r.state.page - 1)
    && NextControl.Decide(site.pages[r.state.page - 1].pagination) == NextControl.Stop(r.outcome.reason)
  }

  /** A failure on page p, for a reason `PageFailure` lists, after writing a
      prefix of the reference list through page p: all of it when the failure
      is the staleness wait, which comes after every entry of the page. */
  predicate FailedAt(site: Site, r: Run)
    requires r.outcome.Failed?
  {
    && 1 <= r.state.page <= |site.pages|
    && r.state.written <= SiteDownloads(site.pages, r.state.page)
    && PageFailure(site.main, site.pages[r.state.page - 1], Reached(site, r.state.page - 1), r)
    && (r.outcome.failure != MainWindowClosed ==> r.state.counter == |r.state.written| + 1)
    && (r.outcome.failure == MainWindowClosed ==> r.state.counter == |r.state.written|)
    && (r.outcome.failure == StalenessTimeout ==> r.state.written == SiteDownloads(site.pages, r.state.page))
  }

  /** One pass of the loop body from a reached page either ends soundly or
      hands the next page its reached state. */
  lemma PageEndSound(site: Site, k: nat)
    requires k < |site.pages|
    ensures var e := VisitPage(site.main, site.pages[k], Reached(site, k));
            && (e.Finished? ==> EndsSound(site, k, e.run))
            && (e.Continue? ==> e.next == Reached(site, k + 1) && PageAdvances(site, k))
  {
    var e := VisitPage(site.main, site.pages[k], Reached(site, k));
    PageEndsAt(site, k);
    if e.Finished? {
      AdvancedNone(site, k, e.run.state.page);
    }
  }

  /** The facts of `PageEndSound` about the page the run ends on. */
  lemma PageEndsAt(site: Site, k: nat)
    requires k < |site.pages|
    ensures var e := VisitPage(site.main, site.pages[k], Reached(site, k));
            && (e.Finished? ==> k + 1 == e.run.state.page && EndsAt(site, e.run))
            && (e.Continue? ==> e.next == Reached(site, k + 1) && PageAdvances(site, k))
  {
    var st := Reached(site, k);
    var pg := site.pages[k];
    if |pg.entries| == 0 {
      EmptyPageEndsAt(site, k);
    } else if ProcessEntries(site.main, st, pg.entries, 0).failure.Some? {
      FailedEntriesEndsAt(site, k);
    } else {
      CompletedEntriesEndsAt(site, k);
    }
  }

  /** `PageEndsAt` when no entry appears. */
  lemma EmptyPageEndsAt(site: Site, k: nat)
    requires k < |site.pages| && |site.pages[k].entries| == 0
    ensures var e := VisitPage(site.main, site.pages[k], Reached(site, k));
            e.Finished? && k + 1 == e.run.state.page && EndsAt(site, e.run)
  {
    var st := Reached(site, k);
    VisitPageFailure(site.main, site.pages[k], st);
    assert st.page - 1 == k;
    SiteDownloadsGrow(site.pages, k, k + 1);
  }

  /** `PageEndsAt` when the entry loop fails. */
  lemma FailedEntriesEndsAt(site: Site, k: nat)
    requires k < |site.pages| && |site.pages[k].entries| > 0
    requires ProcessEntries(site.main, Reached(site, k), site.pages[k].entries, 0).failure.Some?
    ensures var e := VisitPage(site.main, site.pages[k], Reached(site, k));
            e.Finished? && k + 1 == e.run.state.page && EndsAt(site, e.run)
  {
    var st := Reached(site, k);
    VisitPageFailure(site.main, site.pages[k], st);
    assert st.page - 1 == k;
    PageResult(site, k);
  }

  /** `PageEndsAt` when every entry of the page completes. */
  lemma CompletedEntriesEndsAt(site: Site, k: nat)
    requires k < |site.pages| && |site.pages[k].entries| > 0
    requires ProcessEntries(site.main, Reached(site, k), site.pages[k].entries, 0).failure.None?
    ensures var e := VisitPage(site.main, site.pages[k], Reached(site, k));
            && (e.Finished? ==> k + 1 == e.run.state.page && EndsAt(site, e.run))
            && (e.Continue? ==> e.next == Reached(site, k + 1) && PageAdvances(site, k))
  {
    PageResult(site, k);
    var pg := site.pages[k];
    var d := NextControl.Decide(pg.pagination);
    if d.Stop? {
      CompletedStopEndsAt(site, k);
    } else if !pg.goesStale {
      CompletedStaleEndsAt(site, k, k + 1);
    }
  }

  /** Every entry completes and the next control is missing or disabled. */
  lemma CompletedStopEndsAt(site: Site, k: nat)
    requires k < |site.pages|
    requires var s := ProcessEntries(site.main, Reached(site, k), site.pages[k].entries, 0);
             s.failure.None? && s.state == Reached(site, k + 1).(page := k + 1)
    requires PageSucceeds(site, k) && NextControl.Decide(site.pages[k].pagination).Stop?
    ensures var e := VisitPage(site.main, site.pages[k], Reached(site, k));
            e.Finished? && k + 1 == e.run.state.page && EndsAt(site, e.run)
  {
    var e := VisitPage(site.main, site.pages[k], Reached(site, k));
    assert e.run.state == Reached(site, k + 1).(page := k + 1);
    assert FinishedAt(site, e.run);
  }

  /** Every entry completes, the control is clicked and the old entries never go stale. */
  lemma CompletedStaleEndsAt(site: Site, k: nat, p: nat)
    requires p == k + 1 <= |site.pages|
    requires var s := ProcessEntries(site.main, Reached(site, k), site.pages[k].entries, 0);
             s.failure.None? && s.state == Reached(site, p).(page := p)
    requires PageSucceeds(site, k)
    requires NextControl.Decide(site.pages[k].pagination).Follow? && !site.pages[k].goesStale
    ensures var e := VisitPage(site.main, site.pages[k], Reached(site, k));
            e.Finished? && p == e.run.state.page && EndsAt(site, e.run)
  {
    var st := Reached(site, k);
    var pg := site.pages[k];
    var e := VisitPage(site.main, pg, st);
    assert e.run == Run(Failed(StalenessTimeout), Reached(site, p).(page := p));
    assert p - 1 == k;
    assert PageFailure(site.main, pg, st, e.run);
    assert FailedAt(site, e.run);
  }

  /** Nothing lies between page `lo + 1` and a last page no later than it. */
  lemma AdvancedNone(site: Site, lo: nat, last: nat)
    requires last <= lo + 1
    ensures AdvancedBefore(site, lo, last)
  {
  }

  /** From the top of a page reached with every earlier page completed, the
      crawl ends soundly. */
  lemma {:induction false} RunFromSound(site: Site, k: nat)
    requires k < |site.pages|
    ensures EndsSound(site, k, RunFrom(site, k, Reached(site, k)))
    decreases |site.pages| - k
  {
    PageEndSound(site, k);
    var e := VisitPage(site.main, site.pages[k], Reached(site, k));
    var r := RunFrom(site, k, Reached(site, k));
    if e.Finished? {
      assert r == e.run;
    } else if k + 1 == |site.pages| {
      assert r == Run(BeyondSite, Reached(site, k + 1));
      BeyondSound(site, k, k + 1);
    } else {
      assert r == RunFrom(site, k + 1, Reached(site, k + 1));
      RunFromSound(site, k + 1);
      EndsSoundWeaken(site, k, r);
    }
  }

  /** Advancing from the last listed page runs past the site with every page completed. */
  lemma BeyondSound(site: Site, k: nat, n: nat)
    requires n == k + 1 == |site.pages| && PageAdvances(site, k)
    ensures EndsSound(site, k, Run(BeyondSite, Reached(site, n)))
  {
    AdvancedOne(site, k, n);
    BeyondEndsAt(site, n);
  }

  lemma BeyondEndsAt(site: Site, n: nat)
    requires n == |site.pages|
    ensures EndsAt(site, Run(BeyondSite, Reached(site, n)))
  {
  }

  lemma AdvancedOne(site: Site, k: nat, n: nat)
    requires n == k + 1 <= |site.pages| && PageAdvances(site, k)
    ensures AdvancedBefore(site, k, Reached(site, n).page)
  {
    forall q | k <= q && q + 1 < Reached(site, n).page && q < |site.pages|
      ensures PageAdvances(site, q)
    {
      assert q == k;
    }
  }

  lemma EndsSoundWeaken(site: Site, k: nat, r: Run)
    requires k + 1 < |site.pages| && EndsSound(site, k + 1, r) && PageAdvances(site, k)
    ensures EndsSound(site, k, r)
  {
    AdvancedExtend(site, k, r.state.page);
  }

  lemma AdvancedExtend(site: Site, k: nat, last: nat)
    requires k < |site.pages| && PageAdvances(site, k) && AdvancedBefore(site, k + 1, last)
    ensures AdvancedBefore(site, k, last)
  {
    forall q | k <= q && q + 1 < last && q < |site.pages|
      ensures PageAdvances(site, q)
    {
      if q != k {
        assert k + 1 <= q;
      }
    }
  }

  /** A page that succeeds and advances hands over to the next page in its reached state. */
  lemma PageStep(site: Site, k: nat)
    requires k + 1 < |site.pages| && PageAdvances(site, k)
    ensures RunFrom(site, k, Reached(site, k)) == RunFrom(site, k + 1, Reached(site, k + 1))
  {
    PageEndSound(site, k);
  }

  /** When pages `1..p` all succeed and advance, the crawl arrives at page `p + 1`
      having written exactly the reference list of those pages. */
  lemma ScrapeReaches(site: Site, p: nat)
    requires p < |site.pages|
    requires forall q :: 0 <= q < p ==> PageAdvances(site, q)
    ensures RunFrom(site, 0, Reached(site, 0)) == RunFrom(site, p, Reached(site, p))
  {
    RunFromReaches(site, 0, p);
  }

  /** The same from any page `k + 1` up to page `p + 1`. */
  lemma {:induction false} RunFromReaches(site: Site, k: nat, p: nat)
    requires k <= p < |site.pages|
    requires forall q :: k <= q < p ==> PageAdvances(site, q)
    ensures RunFrom(site, k, Reached(site, k)) == RunFrom(site, p, Reached(site, p))
    decreases p - k
  {
    if k != p {
      var q := p - 1;
      RunFromReaches(site, k, q);
      PageStepTo(site, q, p);
    }
  }

  lemma PageStepTo(site: Site, q: nat, p: nat)
    requires p == q + 1 < |site.pages| && PageAdvances(site, q)
    ensures RunFrom(site, q, Reached(site, q)) == RunFrom(site, p, Reached(site, p))
  {
    PageStep(site, q);
  }

  /** The state at line 80 is the reached state of page 1. */
  lemma ScrapeStartsReached(site: Site)
    requires |site.pages| > 0
    ensures Scrape(site) == RunFrom(site, 0, Reached(site, 0))
  {
    assert Initial(site) == Reached(site, 0);
  }

  // ---------------------------------------------------------------------
  // Theorems about whole crawls
  // ---------------------------------------------------------------------

  /** Every crawl: the k-th file written carries counter value k + 1 (the
      counter is never reset between pages), the entries behind the files are
      in page-then-index order with none repeated, and a finished crawl is back
      in the listing window with the counter one past the number of files. */
  lemma ScrapeSound(site: Site)
    requires |site.pages| > 0
    ensures var r := Scrape(site);
            && (forall k :: 0 <= k < |r.state.written| ==> r.state.written[k].serial == k + 1)
            && Ordered(r.state.written)
            && (r.outcome.Done? ==> && r.state.current == site.main
                                    && r.state.page <= |site.pages|
                                    && r.state.written == SiteDownloads(site.pages, r.state.page)
                                    && r.state.counter == |r.state.written| + 1)
  {
    ScrapeStartsReached(site);
    RunFromSound(site, 0);
    WrittenFollowsReference(site, RunFrom(site, 0, Reached(site, 0)));
  }

  /** The files of a soundly ended crawl are numbered from 1 and ordered. */
  lemma WrittenFollowsReference(site: Site, r: Run)
    requires |site.pages| > 0 && EndsSound(site, 0, r)
    ensures forall k :: 0 <= k < |r.state.written| ==> r.state.written[k].serial == k + 1
    ensures Ordered(r.state.written)
  {
    var n := if r.outcome.BeyondSite? then |site.pages| else r.state.page;
    var d := SiteDownloads(site.pages, n);
    var w := r.state.written;
    assert w <= d;
    SiteDownloadsSerials(site.pages, n);
    SiteDownloadsOrdered(site.pages, n);
    forall k | 0 <= k < |w|
      ensures w[k] == d[k]
    {
      assert w[k] == d[..|w|][k];
    }
    forall a, b | 0 <= a < b < |w|
      ensures Before(w[a].at, w[b].at)
    {
      assert w[a] == d[a] && w[b] == d[b];
    }
  }

  /** The entry loop of page p (the run's last page) stopped at its first
      entry j that does not complete, and the files are exactly the reference
      list of the earlier pages followed by the downloads of entries `0..j-1`
      of page p, plus entry j's own file when the switch back to a closed
      listing window is what failed. */
  predicate FirstFailure(site: Site, r: Run)
    requires r.outcome.Failed? && 1 <= r.state.page <= |site.pages|
  {
    var entries := site.pages[r.state.page - 1].entries;
    var earlier := SiteDownloads(site.pages, r.state.page - 1);
    var extra := if r.outcome.failure == MainWindowClosed then 1 else 0;
    var j := |r.state.written| - |earlier| - extra;
    && 0 <= j < |entries|
    && (forall m :: 0 <= m < j ==> EntryCompletes(site.main, m, entries[m]))
    && !EntryCompletes(site.main, j, entries[j])
    && r.state.written == earlier + PageDownloads(r.state.page, entries[..j + extra], |earlier| + 1)
  }

  /** A crawl that fails on page p got there through pages that all advanced
      and, unless no entry appeared or the old entries never went stale,
      stopped at the first failing entry of page p as `FirstFailure` says;
      when the old entries never went stale, the files are exactly the
      reference list through page p. */
  predicate StopsAtFirstFailure(site: Site, r: Run)
    requires |site.pages| > 0
  {
    r.outcome.Failed? ==>
      && 1 <= r.state.page <= |site.pages|
      && AdvancedBefore(site, 0, r.state.page)
      && (|site.pages[r.state.page - 1].entries| > 0 && r.outcome.failure != StalenessTimeout
          ==> FirstFailure(site, r))
      && (r.outcome.failure == StalenessTimeout
          ==> r.state.written == SiteDownloads(site.pages, r.state.page))
  }

  /** Every crawl that fails stops at its first failure. */
  lemma ScrapeStopsAtFirstFailure(site: Site)
    requires |site.pages| > 0
    ensures StopsAtFirstFailure(site, Scrape(site))
  {
    ScrapeStartsReached(site);
    RunFromSound(site, 0);
    SoundFailureFirst(site, Scrape(site));
  }

  /** The same for any run that ends soundly from page 1. */
  lemma SoundFailureFirst(site: Site, r: Run)
    requires |site.pages| > 0 && EndsSound(site, 0, r)
    ensures StopsAtFirstFailure(site, r)
  {
    if r.outcome.Failed? && |site.pages[r.state.page - 1].entries| > 0 && r.outcome.failure != StalenessTimeout {
      FailedAtFirstFailure(site, r);
    }
  }

  /** A sound failure inside the entry loop is a `FirstFailure`. */
  lemma FailedAtFirstFailure(site: Site, r: Run)
    requires r.outcome.Failed? && FailedAt(site, r)
    requires |site.pages[r.state.page - 1].entries| > 0 && r.outcome.failure != StalenessTimeout
    ensures FirstFailure(site, r)
  {
    var p := r.state.page;
    var k := p - 1;
    var entries := site.pages[k].entries;
    var earlier := SiteDownloads(site.pages, k);
    var extra := if r.outcome.failure == MainWindowClosed then 1 else 0;
    var j := |r.state.written| - |earlier| - extra;
    FailedAtStopped(site, r);
    assert 0 <= j < |entries|;
    WrittenUpTo(site.pages, k, p, r.state.written, j + extra);
  }

  /** Files that are a prefix of the reference list through page `p`, `m` more
      than the list before it, are that list plus the first `m` entries of page `p`. */
  lemma WrittenUpTo(pages: seq<Page>, k: nat, p: nat, w: seq<Download>, m: nat)
    requires p == k + 1 <= |pages|
    requires w <= SiteDownloads(pages, p) && |w| == |SiteDownloads(pages, k)| + m
    ensures m <= |pages[k].entries|
    ensures w == SiteDownloads(pages, k) + PageDownloads(p, pages[k].entries[..m], |SiteDownloads(pages, k)| + 1)
  {
    var earlier := SiteDownloads(pages, k);
    SiteDownloadsNextTo(pages, k, p);
    PrefixOfConcat(earlier, PageDownloads(p, pages[k].entries, |earlier| + 1), w, m);
    PageDownloadsPrefix(p, pages[k].entries, |earlier| + 1, m);
  }

  /** The entry loop behind a sound failure inside it stopped at its first failing entry. */
  lemma FailedAtStopped(site: Site, r: Run)
    requires r.outcome.Failed? && FailedAt(site, r)
    requires |site.pages[r.state.page - 1].entries| > 0 && r.outcome.failure != StalenessTimeout
    ensures StoppedAt(site.main, Reached(site, r.state.page - 1), site.pages[r.state.page - 1].entries, 0,
                      Step(r.state, Some(r.outcome.failure)))
  {
  }

  /** A prefix of `a + b` that is `m` longer than `a` is `a` followed by `m` elements of `b`. */
  lemma PrefixOfConcat<T>(a: seq<T>, b: seq<T>, w: seq<T>, m: nat)
    requires w <= a + b && |w| == |a| + m
    ensures m <= |b| && w == a + b[..m]
  {
    assert w == (a + b)[..|w|];
  }

  /** `SiteDownloadsNext` with the next page count passed as `p`. */
  lemma SiteDownloadsNextTo(pages: seq<Page>, k: nat, p: nat)
    requires p == k + 1 <= |pages|
    ensures SiteDownloads(pages, p) == SiteDownloads(pages, k) + PageDownloads(p, pages[k].entries, |SiteDownloads(pages, k)| + 1)
  {
  }

  /** The downloads of the first m entries are the first m downloads of the page. */
  lemma PageDownloadsPrefix(pageNo: nat, entries: seq<Entry>, first: nat, m: nat)
    requires m <= |entries|
    ensures PageDownloads(pageNo, entries, first)[..m] == PageDownloads(pageNo, entries[..m], first)
  {
  }

  /** While the counter stays within four digits, the files written by any
      crawl have pairwise different names, each `document_NNNN.pdf` for its
      position in the run. */
  lemma ScrapeNamesDistinct(site: Site)
    requires |site.pages| > 0
    requires |Scrape(site).state.written| <= 9999
    ensures NamedInOrder(Scrape(site).state.written)
  {
    ScrapeSerials(site);
    NamesFromSerials(Scrape(site).state.written);
  }

  /** The serial-number part of `ScrapeSound`. */
  lemma ScrapeSerials(site: Site)
    requires |site.pages| > 0
    ensures var w := Scrape(site).state.written;
            forall k :: 0 <= k < |w| ==> w[k].serial == k + 1
  {
    ScrapeSound(site);
  }

  /** The k-th file is named `DocName(k + 1)` and no two files share a name. */
  predicate NamedInOrder(w: seq<Download>) {
    && (forall k :: 0 <= k < |w| ==> w[k].Name() == DocName.DocName(k + 1))
    && (forall a, b :: 0 <= a < b < |w| ==> w[a].Name() != w[b].Name())
  }

  /** Files numbered 1, 2, ... up to 9999 are named `document_0001.pdf`, ... and
      no two share a name. */
  lemma NamesFromSerials(w: seq<Download>)
    requires |w| <= 9999
    requires forall k :: 0 <= k < |w| ==> w[k].serial == k + 1
    ensures NamedInOrder(w)
  {
  }

  /** A crawl whose pages `1..p` advance and whose page `p + 1` succeeds and
      shows no enabled next control ends there, in the listing window, having
      downloaded every entry of pages `1..p + 1` once, in order. */
  lemma ScrapeCompletes(site: Site, p: nat)
    requires p < |site.pages|
    requires forall q :: 0 <= q < p ==> PageAdvances(site, q)
    requires PageSucceeds(site, p)
    requires NextControl.Decide(site.pages[p].pagination).Stop?
    ensures Scrape(site).outcome == Done(NextControl.Decide(site.pages[p].pagination).reason)
    ensures Scrape(site).state == Reached(site, p + 1).(page := p + 1)
  {
    ScrapeReaches(site, p);
    var st := Reached(site, p);
    var s := ProcessEntries(site.main, st, site.pages[p].entries, 0);
    PageWritesPrefix(site, p, s.state.written);
  }

  /** Under the conditions of `ScrapeCompletes`, every entry of pages `1..p + 1`
      has been downloaded, at its place in the reference list. */
  lemma ScrapeDownloadsEvery(site: Site, p: nat, n: nat)
    requires n == p + 1 <= |site.pages|
    requires forall q :: 0 <= q < p ==> PageAdvances(site, q)
    requires PageSucceeds(site, p)
    requires NextControl.Decide(site.pages[p].pagination).Stop?
    ensures DownloadsEvery(Scrape(site).state.written, site.pages, n)
  {
    ScrapeCompletes(site, p);
    assert Scrape(site).state.written == SiteDownloads(site.pages, n);
    SiteDownloadsComplete(site.pages, n);
  }

  /** A page on which no entry appears within the wait ends the crawl in
      failure instead of moving on. */
  lemma ScrapeEmptyPageFails(site: Site, p: nat)
    requires p < |site.pages|
    requires forall q :: 0 <= q < p ==> PageAdvances(site, q)
    requires |site.pages[p].entries| == 0
    ensures Scrape(site) == Run(Failed(EntriesTimeout), Reached(site, p))
  {
    ScrapeReaches(site, p);
  }
}

=== FILE: next_control.dfy ===
/** The "next page" control: `find_next_li` (lines 39-68) and the decision
    the page loop takes with its result (lines 131-156).

    The browser's selector engine is abstracted away: a rendered page is a
    `Dom`, a map from each selector that matches something on the page to the
    first `<li>` element it finds. */
module NextControl {
  import opened Wrappers
  import Search

  /** The four selectors of lines 44-60. */
  datatype Selector =
    | SpanAriaLabel   // an li containing a span.page-link labelled "Go to next page"
    | AnyAriaLabel    // an li containing any .page-link labelled "Go to next page"
    | ArabicNextText  // an li.page-item containing the Arabic word for "next"
    | LastPageItem    // the last li.page-item of ul.pagination

  /** The order in which `find_next_li` tries the selectors. */
  const Candidates: seq<Selector> := [SpanAriaLabel, AnyAriaLabel, ArabicNextText, LastPageItem]

  type ElementId = nat

  /** A pagination `<li>`: its identity, its `class` attribute (None when the
      attribute is absent) and the inner `.page-link` element, if any. */
  datatype Li = Li(id: ElementId, cls: Option<string>, pageLink: Option<ElementId>)

  type Dom = map<Selector, Li>

  /** `find_next_li`: the element found by the first selector that matches, or None. */
  function FindNextLi(dom: Dom): (r: Option<Li>)
    ensures r.None? <==> forall k :: 0 <= k < |Candidates| ==> Candidates[k] !in dom
    ensures r.Some? ==> exists k :: 0 <= k < |Candidates| && Candidates[k] in dom
                                    && r.value == dom[Candidates[k]]
                                    && forall j :: 0 <= j < k ==> Candidates[j] !in dom
  {
    match Search.FirstIndex(Candidates, s => s in dom)
    case None => None
    case Some(k) => Some(dom[Candidates[k]])
  }

  /** The earliest matching selector decides, whatever the later ones find. */
  lemma FindNextLiFirstWins(dom: Dom, k: nat)
    requires k < |Candidates| && Candidates[k] in dom
    requires forall j :: 0 <= j < k ==> Candidates[j] !in dom
    ensures FindNextLi(dom) == Some(dom[Candidates[k]])
  {
    Search.FirstIndexUnique(Candidates, s => s in dom, k);
  }

  /** The positional fallback alone is enough for a control to be found. */
  lemma PositionalFallbackSuffices(dom: Dom)
    requires LastPageItem in dom
    ensures FindNextLi(dom).Some?
  {
    assert Candidates[3] == LastPageItem;
  }

  /** Each selector is sufficient on its own: whichever one matches, a control is found. */
  lemma AnySelectorSuffices(dom: Dom, s: Selector)
    requires s in dom
    ensures FindNextLi(dom).Some?
  {
    assert s == Candidates[0] || s == Candidates[1] || s == Candidates[2] || s == Candidates[3];
  }

  /** Python's `needle in hay` on strings. */
  predicate Contains(hay: string, needle: string) {
    exists i :: 0 <= i <= |hay| && needle <= hay[i..]
  }

  const DisabledMarker: string := "disabled"

  /** Line 143: the class attribute, with None read as "", contains "disabled". */
  predicate IsDisabled(li: Li) {
    Contains(li.cls.GetOr(""), DisabledMarker)
  }

  /** Lines 148-151: the inner `.page-link` when there is one, else the `<li>` itself. */
  function ClickTarget(li: Li): ElementId {
    match li.pageLink
    case Some(link) => link
    case None => li.id
  }

  /** What the page loop sees after scrolling to the bottom: the snapshots the
      25-second wait of line 133 polls (a finite sequence stands for the time
      budget), then the page that line 138 queries once more. */
  datatype Pagination = Pagination(polls: seq<Dom>, settled: Dom)

  datatype StopReason = NoNextControl | LastPage

  datatype Decision = Stop(reason: StopReason) | Follow(target: ElementId)

  predicate HasNext(dom: Dom) {
    FindNextLi(dom).Some?
  }

  /** Lines 132-156: stop when no control shows up within the wait or the
      re-query finds none, stop when the control is disabled, and otherwise
      click its target. */
  function Decide(p: Pagination): (d: Decision)
    ensures d == Stop(NoNextControl)
            <==> (forall k :: 0 <= k < |p.polls| ==> !HasNext(p.polls[k])) || !HasNext(p.settled)
    ensures d.Follow? ==> && HasNext(p.settled)
                          && !IsDisabled(FindNextLi(p.settled).value)
                          && d.target == ClickTarget(FindNextLi(p.settled).value)
    ensures d == Stop(LastPage) ==> HasNext(p.settled) && IsDisabled(FindNextLi(p.settled).value)
  {
    match Search.FirstIndex(p.polls, HasNext)
    case None => Stop(NoNextControl)
    case Some(_) =>
      match FindNextLi(p.settled)
      case None => Stop(NoNextControl)
      case Some(li) =>
        if IsDisabled(li) then Stop(LastPage) else Follow(ClickTarget(li))
  }

  /** A control whose class says "disabled" always ends the crawl, whichever selector found it. */
  lemma DisabledStops(p: Pagination)
    requires exists k :: 0 <= k < |p.polls| && HasNext(p.polls[k])
    requires HasNext(p.settled) && IsDisabled(FindNextLi(p.settled).value)
    ensures Decide(p) == Stop(LastPage)
  {
  }

  /** An enabled control found by the wait and by the re-query is followed. */
  lemma EnabledFollows(p: Pagination)
    requires exists k :: 0 <= k < |p.polls| && HasNext(p.polls[k])
    requires HasNext(p.settled) && !IsDisabled(FindNextLi(p.settled).value)
    ensures Decide(p) == Follow(ClickTarget(FindNextLi(p.settled).value))
  {
  }

  /** A class attribute that is absent never reads as disabled. */
  lemma MissingClassIsEnabled(li: Li)
    requires li.cls.None?
    ensures !IsDisabled(li)
  {
  }
}

=== FILE: safe_name.dfy ===
/** `safe_filename` of scrape_pdfs.py: every maximal run of path-illegal
    characters becomes one `_`, surrounding whitespace is stripped, and the
    result is cut to at most 180 characters. */
module SafeName {

  /** What each run of illegal characters is replaced by. */
  const Replacement: char := '_'

  /** The length the sanitised name is truncated to. */
  const MaxNameLength: nat := 180

  /** The nine characters of the substitution pattern's character class. */
  predicate IsIllegal(c: char) {
    c == '\\' || c == '/' || c == '*' || c == '?' || c == ':'
    || c == '"' || c == '<' || c == '>' || c == '|'
  }

  /** The characters Python's `str.strip()` removes (those `str.isspace()` accepts). */
  predicate IsSpace(c: char) {
    ('\t' <= c <= '\r') || ('\U{1C}' <= c <= ' ')
    || c == '\U{85}' || c == '\U{A0}' || c == '\U{1680}'
    || ('\U{2000}' <= c <= '\U{200A}')
    || c == '\U{2028}' || c == '\U{2029}' || c == '\U{202F}'
    || c == '\U{205F}' || c == '\U{3000}'
  }

  predicate NoIllegal(s: string) {
    forall i :: 0 <= i < |s| ==> !IsIllegal(s[i])
  }

  predicate AllIllegal(s: string) {
    forall i :: 0 <= i < |s| ==> IsIllegal(s[i])
  }

  /** Neither the first nor the last character is whitespace. */
  predicate Trimmed(s: string) {
    |s| == 0 || (!IsSpace(s[0]) && !IsSpace(s[|s| - 1]))
  }

  // ---------------------------------------------------------------------
  // Run collapsing: the regular-expression substitution of line 19
  // ---------------------------------------------------------------------

  /** `s` without its leading run of illegal characters. */
  function DropRun(s: string): (r: string)
    ensures |r| <= |s| && r == s[|s| - |r|..]
    ensures AllIllegal(s[..|s| - |r|])
    ensures |r| == 0 || !IsIllegal(r[0])
  {
    if |s| > 0 && IsIllegal(s[0]) then DropRun(s[1..]) else s
  }

  /** Replace every maximal run of illegal characters by one `Replacement`. */
  function CollapseRuns(s: string): (r: string)
    ensures NoIllegal(r)
    ensures |r| <= |s|
    decreases |s|
  {
    if |s| == 0 then []
    else if IsIllegal(s[0]) then [Replacement] + CollapseRuns(DropRun(s[1..]))
    else [s[0]] + CollapseRuns(s[1..])
  }

  /** The characters that neither are illegal nor are the replacement, in order. */
  function Others(s: string): (r: string)
    ensures |r| <= |s|
  {
    if |s| == 0 then []
    else if IsIllegal(s[0]) || s[0] == Replacement then Others(s[1..])
    else [s[0]] + Others(s[1..])
  }

  /** A string without illegal characters is left as it is. */
  lemma {:induction false} CollapseKeepsLegal(s: string)
    requires NoIllegal(s)
    ensures CollapseRuns(s) == s
    decreases |s|
  {
    if |s| > 0 {
      CollapseKeepsLegal(s[1..]);
    }
  }

  /** Dropping the leading run of `u + v` stays inside `u` when `u` ends legally. */
  lemma {:induction false} DropRunConcat(u: string, v: string)
    requires |u| > 0 && !IsIllegal(u[|u| - 1])
    ensures DropRun(u + v) == DropRun(u) + v
    decreases |u|
  {
    if IsIllegal(u[0]) {
      assert (u + v)[1..] == u[1..] + v;
      DropRunConcat(u[1..], v);
    }
  }

  /** A whole run of illegal characters is dropped at once. */
  lemma {:induction false} DropRunWhole(run: string, v: string)
    requires AllIllegal(run)
    requires |v| == 0 || !IsIllegal(v[0])
    ensures DropRun(run + v) == v
    decreases |run|
  {
    if |run| > 0 {
      assert (run + v)[1..] == run[1..] + v;
      DropRunWhole(run[1..], v);
    } else {
      assert run + v == v;
    }
  }

  /** Collapsing distributes over a cut that does not split a run. */
  lemma {:induction false} CollapseConcat(u: string, v: string)
    requires |u| == 0 || !IsIllegal(u[|u| - 1])
    ensures CollapseRuns(u + v) == CollapseRuns(u) + CollapseRuns(v)
    decreases |u|, 1
  {
    if |u| == 0 {
      assert u + v == v;
    } else if IsIllegal(u[0]) {
      CollapseConcatRunFirst(u, v);
    } else {
      var w := u + v;
      assert w[0] == u[0];
      assert w[1..] == u[1..] + v;
      CollapseConcat(u[1..], v);
      calc {
        CollapseRuns(w);
        [u[0]] + CollapseRuns(u[1..] + v);
        [u[0]] + (CollapseRuns(u[1..]) + CollapseRuns(v));
        ([u[0]] + CollapseRuns(u[1..])) + CollapseRuns(v);
      }
    }
  }

  /** The case of `CollapseConcat` where `u` opens with a run. */
  lemma {:induction false} CollapseConcatRunFirst(u: string, v: string)
    requires |u| > 0 && IsIllegal(u[0]) && !IsIllegal(u[|u| - 1])
    ensures CollapseRuns(u + v) == CollapseRuns(u) + CollapseRuns(v)
    decreases |u|, 0, 2
  {
    var u' := u[1..];
    var cd, cv := CollapseRuns(DropRun(u')), CollapseRuns(v);
    calc {
      CollapseRuns(u + v);
      { CollapseHeadOfConcat(u, v); }
      [Replacement] + CollapseRuns(DropRun(u' + v));
      { CollapseAfterRun(u, v); }
      [Replacement] + (cd + cv);
      { PrependAssoc(Replacement, cd, cv); }
      ([Replacement] + cd) + cv;
      { CollapseIllegalHead(u); }
      CollapseRuns(u) + cv;
    }
  }

  lemma PrependAssoc(c: char, a: string, b: string)
    ensures [c] + (a + b) == ([c] + a) + b
  {
  }

  /** A leading illegal character of `u` leads `u + v` too. */
  lemma CollapseHeadOfConcat(u: string, v: string)
    requires |u| > 0 && IsIllegal(u[0])
    ensures CollapseRuns(u + v) == [Replacement] + CollapseRuns(DropRun(u[1..] + v))
  {
    var w := u + v;
    assert w[0] == u[0];
    assert w[1..] == u[1..] + v;
    CollapseIllegalHead(w);
  }

  /** After the first character of `u`, which ends legally, the rest of its
      leading run is dropped inside `u`, and the remainder of `u` and `v` are
      substituted separately. */
  lemma {:induction false} CollapseAfterRun(u: string, v: string)
    requires |u| > 0 && IsIllegal(u[0]) && !IsIllegal(u[|u| - 1])
    ensures CollapseRuns(DropRun(u[1..] + v)) == CollapseRuns(DropRun(u[1..])) + CollapseRuns(v)
    decreases |u|, 0, 1
  {
    var u' := u[1..];
    assert u'[|u'| - 1] == u[|u| - 1];
    var d := DropRun(u');
    DropRunConcat(u', v);
    DropRunTail(u');
    CollapseConcat(d, v);
  }

  lemma CollapseIllegalHead(s: string)
    requires |s| > 0 && IsIllegal(s[0])
    ensures CollapseRuns(s) == [Replacement] + CollapseRuns(DropRun(s[1..]))
  {
  }

  /** A string ending in a legal character keeps that ending after its leading run is dropped. */
  lemma {:induction false} DropRunTail(s: string)
    requires |s| > 0 && !IsIllegal(s[|s| - 1])
    ensures |DropRun(s)| > 0 && DropRun(s)[|DropRun(s)| - 1] == s[|s| - 1]
    decreases |s|
  {
    if IsIllegal(s[0]) {
      assert s[1..][|s| - 2] == s[|s| - 1];
      DropRunTail(s[1..]);
    }
  }

  /** A maximal run of illegal characters becomes exactly one `Replacement`. */
  lemma CollapseRun(run: string, v: string)
    requires |run| > 0 && AllIllegal(run)
    requires |v| == 0 || !IsIllegal(v[0])
    ensures CollapseRuns(run + v) == [Replacement] + CollapseRuns(v)
  {
    assert (run + v)[0] == run[0];
    assert (run + v)[1..] == run[1..] + v;
    DropRunWhole(run[1..], v);
  }

  /** Removing a leading run removes none of the other characters. */
  lemma {:induction false} OthersDropRun(s: string)
    ensures Others(DropRun(s)) == Others(s)
    decreases |s|
  {
    if |s| > 0 && IsIllegal(s[0]) {
      OthersDropRun(s[1..]);
    }
  }

  /** All characters other than illegal ones and `_` survive, in their order. */
  lemma {:induction false} CollapseKeepsOthers(s: string)
    ensures Others(CollapseRuns(s)) == Others(s)
    decreases |s|
  {
    if |s| > 0 {
      if IsIllegal(s[0]) {
        var t := CollapseRuns(DropRun(s[1..]));
        assert ([Replacement] + t)[1..] == t;
        CollapseKeepsOthers(DropRun(s[1..]));
        OthersDropRun(s[1..]);
      } else {
        var t := CollapseRuns(s[1..]);
        assert ([s[0]] + t)[1..] == t;
        CollapseKeepsOthers(s[1..]);
      }
    }
  }

  // ---------------------------------------------------------------------
  // str.strip()
  // ---------------------------------------------------------------------

  /** Index of the first non-whitespace character at or after `i` (or `|s|`). */
  function StripStart(s: string, i: nat): (lo: nat)
    requires i <= |s|
    ensures i <= lo <= |s|
    ensures forall k :: i <= k < lo ==> IsSpace(s[k])
    ensures lo == |s| || !IsSpace(s[lo])
    decreases |s| - i
  {
    if i < |s| && IsSpace(s[i]) then StripStart(s, i + 1) else i
  }

  /** One past the last non-whitespace character before `j` and at or after `lo` (or `lo`). */
  function StripEnd(s: string, lo: nat, j: nat): (hi: nat)
    requires lo <= j <= |s|
    ensures lo <= hi <= j
    ensures forall k :: hi <= k < j ==> IsSpace(s[k])
    ensures hi == lo || !IsSpace(s[hi - 1])
    decreases j
  {
    if lo < j && IsSpace(s[j - 1]) then StripEnd(s, lo, j - 1) else j
  }

  /** Python's `s.strip()`: the slice of `s` left after removing all leading
      and trailing whitespace. */
  function Strip(s: string): (r: string)
    ensures Trimmed(r)
    ensures exists lo, hi :: 0 <= lo <= hi <= |s| && r == s[lo..hi]
                             && (forall k :: 0 <= k < lo ==> IsSpace(s[k]))
                             && (forall k :: hi <= k < |s| ==> IsSpace(s[k]))
  {
    var lo := StripStart(s, 0);
    var hi := StripEnd(s, lo, |s|);
    assert hi == lo || !IsSpace(s[lo]);
    s[lo..hi]
  }

  /** Stripping a string that has no surrounding whitespace changes nothing. */
  lemma StripTrimmed(s: string)
    requires Trimmed(s)
    ensures Strip(s) == s
  {
  }

  /** Stripping never introduces an illegal character. */
  lemma StripKeepsNoIllegal(s: string)
    requires NoIllegal(s)
    ensures NoIllegal(Strip(s))
  {
    var r := Strip(s);
    var lo, hi :| 0 <= lo <= hi <= |s| && r == s[lo..hi];
    forall i | 0 <= i < |r|
      ensures !IsIllegal(r[i])
    {
      assert r[i] == s[lo + i];
    }
  }

  // ---------------------------------------------------------------------
  // safe_filename
  // ---------------------------------------------------------------------

  /** `safe_filename(name)`: collapse illegal runs, strip, keep at most 180 characters. */
  function SafeFilename(name: string): (r: string)
    ensures |r| <= MaxNameLength
    ensures NoIllegal(r)
    ensures |r| == MaxNameLength || Trimmed(r)
  {
    var t := Strip(CollapseRuns(name));
    StripKeepsNoIllegal(CollapseRuns(name));
    if |t| <= MaxNameLength then t else t[..MaxNameLength]
  }

  /** A name that is already clean (no illegal character, no surrounding
      whitespace, short enough) comes back unchanged. */
  lemma SafeFilenameKeepsCleanNames(name: string)
    requires NoIllegal(name) && Trimmed(name) && |name| <= MaxNameLength
    ensures SafeFilename(name) == name
  {
    CollapseKeepsLegal(name);
    StripTrimmed(name);
  }

  /** Sanitising twice is sanitising once, as long as the first pass did not truncate. */
  lemma SafeFilenameIdempotent(name: string)
    requires |Strip(CollapseRuns(name))| <= MaxNameLength
    ensures SafeFilename(SafeFilename(name)) == SafeFilename(name)
  {
    SafeFilenameKeepsCleanNames(SafeFilename(name));
  }
}

=== FILE: scenarios.dfy ===
/** Concrete crawls of small sites, worked out with the general theorems. */
module Scenarios {
  import opened Wrappers
  import DocName
  import NextControl
  import opened Driver
  import opened DriverProps

  const Main: Handle := 0
  const Tab: Handle := 1
  const PdfUrl: string := "https://example.org/doc.pdf"

  /** An entry that opens one new tab, resolves and downloads. */
  function GoodEntry(count: nat): Entry {
    Entry(count, [Main, Tab], PdfUrl, true)
  }

  /** An enabled next control found by the first selector, with an inner link. */
  const EnabledLi: NextControl.Li := NextControl.Li(10, Some("page-item"), Some(11))

  /** The same control greyed out on the last page. */
  const DisabledLi: NextControl.Li := NextControl.Li(10, Some("page-item disabled"), Some(11))

  function Showing(li: NextControl.Li): NextControl.Dom {
    map[NextControl.SpanAriaLabel := li]
  }

  function Settled(li: NextControl.Li): NextControl.Pagination {
    NextControl.Pagination([Showing(li)], Showing(li))
  }

  /** Three entries on page 1, one on page 2, and a disabled control on page 2. */
  const TwoPages: Site := Site(Main, [
    Page([GoodEntry(3), GoodEntry(3), GoodEntry(3)], Settled(EnabledLi), true),
    Page([GoodEntry(1)], Settled(DisabledLi), true)])

  lemma EnabledLiIsEnabled()
    ensures !NextControl.IsDisabled(EnabledLi)
  {
    var hay := "page-item";
    forall i | 0 <= i <= |hay|
      ensures !(NextControl.DisabledMarker <= hay[i..])
    {
      if i < 2 {
        assert hay[i..][0] != NextControl.DisabledMarker[0];
      }
    }
  }

  lemma DisabledLiIsDisabled()
    ensures NextControl.IsDisabled(DisabledLi)
  {
    var hay := "page-item disabled";
    assert NextControl.DisabledMarker <= hay[10..];
  }

  lemma FindsShown(li: NextControl.Li)
    ensures NextControl.FindNextLi(Showing(li)) == Some(li)
  {
    NextControl.FindNextLiFirstWins(Showing(li), 0);
  }

  /** Page 1 completes and moves on; page 2 completes and shows a disabled control. */
  lemma TwoPagesPlan()
    ensures PageAdvances(TwoPages, 0) && PageSucceeds(TwoPages, 1)
    ensures NextControl.Decide(TwoPages.pages[1].pagination) == NextControl.Stop(NextControl.LastPage)
  {
    var site := TwoPages;
    FindsShown(EnabledLi);
    FindsShown(DisabledLi);
    EnabledLiIsEnabled();
    DisabledLiIsDisabled();
    assert NextControl.HasNext(site.pages[0].pagination.polls[0]);
    assert NextControl.HasNext(site.pages[1].pagination.polls[0]);
  }

  /** The reference list of both pages: three files from page 1, then one from page 2. */
  lemma TwoPagesReference()
    ensures var d := SiteDownloads(TwoPages.pages, 2);
            && |d| == 4
            && (forall k :: 0 <= k < 3 ==> d[k].at == Visit(1, k, PdfUrl))
            && d[3].at == Visit(2, 0, PdfUrl)
  {
    assert |SiteDownloads(TwoPages.pages, 1)| == 3;
  }

  /** The two-page crawl downloads four files, `document_0001.pdf` to
      `document_0004.pdf`, three from page 1 and one from page 2, then stops
      on the disabled control, back in the listing window. */
  lemma TwoPageCrawl()
    ensures Scrape(TwoPages).outcome == Done(NextControl.LastPage)
    ensures var w := Scrape(TwoPages).state.written;
            && |w| == 4
            && Scrape(TwoPages).state.current == Main
            && Scrape(TwoPages).state.counter == 5
            && (forall k :: 0 <= k < 3 ==> w[k].at == Visit(1, k, PdfUrl))
            && w[3].at == Visit(2, 0, PdfUrl)
            && (forall k :: 0 <= k < 4 ==> w[k].Name() == DocName.DocName(k + 1))
  {
    TwoPagesPlan();
    ScrapeCompletes(TwoPages, 1);
    TwoPagesReference();
    ScrapeNamesDistinct(TwoPages);
  }

  /** A single page whose next control never renders within the wait. */
  const NoControl: Site := Site(Main, [
    Page([GoodEntry(1)], NextControl.Pagination([map[], map[]], map[]), true)])

  /** When no selector matches during the wait, the crawl stops normally after
      the page's entries instead of raising. */
  lemma NoControlStops()
    ensures Scrape(NoControl) == Run(Done(NextControl.NoNextControl), Reached(NoControl, 1).(page := 1))
  {
    var site := NoControl;
    assert PageSucceeds(site, 0);
    ScrapeCompletes(site, 0);
  }

  /** A page whose only entry's download raises. */
  const BrokenDownload: Site := Site(Main, [
    Page([Entry(1, [Main, Tab], PdfUrl, false)], Settled(DisabledLi), true)])

  /** The download error ends the whole crawl with the PDF tab still current:
      the close-and-switch-back of lines 121-122 is not reached. */
  lemma BrokenDownloadLeavesTabOpen()
    ensures Scrape(BrokenDownload).outcome == Failed(DownloadError)
    ensures Scrape(BrokenDownload).state.current == Tab
    ensures Scrape(BrokenDownload).state.written == []
  {
    var site := BrokenDownload;
    var e := site.pages[0].entries[0];
    assert !EntryCompletes(Main, 0, e);
    var s := ProcessEntries(Main, Initial(site), site.pages[0].entries, 0);
    assert s.failure == Some(DownloadError);
  }
}

=== FILE: search.dfy ===
/** The "first success" primitive. It is shared by the ordered selector chain
    of `find_next_li` and by the bounded poll that waits for a next control:
    candidates are tried in order and the first one that passes wins. */
module Search {
  import opened Wrappers

  /** Index of the first element of `xs` satisfying `ok`, or None when none does. */
  function FirstIndex<T>(xs: seq<T>, ok: T -> bool): (r: Option<nat>)
    ensures r.None? <==> forall j :: 0 <= j < |xs| ==> !ok(xs[j])
    ensures r.Some? ==> r.value < |xs| && ok(xs[r.value])
    ensures r.Some? ==> forall j :: 0 <= j < r.value ==> !ok(xs[j])
    decreases |xs|
  {
    if |xs| == 0 then None
    else if ok(xs[0]) then Some(0)
    else
      match FirstIndex(xs[1..], ok)
      case None => None
      case Some(k) => Some(k + 1)
  }

  /** The first success is unique: any passing index with no earlier pass is it. */
  lemma FirstIndexUnique<T>(xs: seq<T>, ok: T -> bool, k: nat)
    requires k < |xs| && ok(xs[k])
    requires forall j :: 0 <= j < k ==> !ok(xs[j])
    ensures FirstIndex(xs, ok) == Some(k)
  {
  }
}

=== FILE: wrappers.dfy ===
/** Optional values: the model's counterpart of Python's `None`. */
module Wrappers {

  datatype Option<+T> = None | Some(value: T) {

    /** The wrapped value, or `default` when there is none (Python's `x or default`). */
    function GetOr(default: T): T {
      match this
      case Some(v) => v
      case None => default
    }
  }
}
